=== FILE: README.md ===
# KenKen generator and solvers in Dafny

This project models a small KenKen program. It has five parts:

- **Latin-square generator.** `fill_KenKen` and `generate_KenKen` fill an N x N board by randomised backtracking. Every row and every column ends up holding 1..N once.
- **Cage partitioner.** `generate_random_cages` cuts the filled board into cages by random walks. Each cage gets an operation (`+ - * /`) and a target worked out from the board by `calculate_target`.
- **Cage evaluator.** `validate_cage_operation` checks the values placed so far in a cage. A complete cage must meet its target; a partial `+`/`*` cage must not go over it.
- **Backtracking solver.** `solve_kenken`, with `is_safe_kenken`, `find_cage`, `find_values` and `find_unassigned_location`.
- **Forward-checking solver.** `solve_kenken_csp`, with its nested `create_domains`, `is_valid_assignment`, `update_domains` and `solve_csp`.

Modules:
- `Grids` (`grid.dfy`): the board, cell writes, the row-major scan for an empty cell, the row/column test, and Latin squares.
- `Cages` (`cage.dfy`): cages, target arithmetic and the evaluator.
- `Generator` (`generator.dfy`), `Partition` (`partition.dfy`), `Backtracking` (`backtracking.dfy`) and `Csp` (`csp.dfy`): one module per part.
- `RoundTrip` (`roundtrip.dfy`): puts the parts together in the order the program uses them. A puzzle is cut from a generated square and then solved from a blank board.

Modelling choices:
- **Boards.** A board is a `seq<seq<int>>` in which 0 marks an empty cell.
- **In-place mutation.** The Python code changes its list-of-lists in place. Here every search returns the board as it leaves it. "The board is restored on failure" becomes `!ok ==> res == g`.
- **Probes.** `is_safe_kenken` and `is_valid_assignment` write a cell and then put 0 back. They return a `Probe`: the verdict plus the resulting board.
- **Randomness.** Each `random.randint` and `random.choice` is an arbitrary choice within its range (Dafny's `:|`). Every property therefore holds for every outcome.
- **CSP assignment.** The assignment dictionary of the forward-checking solver holds exactly the N x N coordinates, inserted in row-major order and never extended. It is therefore modelled as a board. Its `find_unassigned_location` is the same row-major scan as the backtracking solver's.
- **Domains.** The domains are a `map<Cell, set<int>>`.
- **Domain order.** `for val in domains[(i, j)].copy()` visits the values of the copy in an arbitrary order, each value once.
- **Targets.** Targets are exact rationals (`real`).

Properties proved:
- The three searches (`fill_KenKen`, `solve_kenken` and `solve_csp`) keep every value already placed and fill every cell when they succeed, and return the board unchanged when they fail. A successful search that started from a board without repeated values in any row or column returns a Latin square; for `solve_csp` this also needs every domain to lie within 1..N, which holds for the domains `create_domains` builds.
- Both solvers' results satisfy every cage that still had an empty cell. For the backtracking solver this holds when the cages do not overlap.
- The partitioner's cages partition the board. Each cage is a side-adjacent walk of 1..N distinct cells, a `-` or `/` cage has at most two cells, and the generating board satisfies every cage.
- Targets round-trip through the evaluator.
- The evaluator's partial checks never reject a board that can still be completed to a solution.
- `create_domains` never removes a solution's value.
- `update_domains` removes the placed value from exactly the cell's row and column.
- The forward-checking solver's elif chain is equivalent to `validate_cage_operation`.

Behaviour of the code worth knowing:
- **`*` domains.** `create_domains` overwrites the domains in cage order, so each cell gets the domain of the last cage containing it: the divisors of the target within 1..N for a `*` cage, 1..N for any other cage; a cell in no cage keeps 1..N.
- **`-` and `/` cages with more than two cells.** `calculate_target` computes max − min and max / min over all the values of such a cage. The evaluator compares `values[0]` and `values[1]` for `-`, and max / min of all values for `/`.
- **Overlapping cages.** The backtracking solver checks only the first cage containing a cell, so with overlapping cages that contradict each other it can return a board that violates a later cage. `Backtracking.FirstCageOnly` exhibits this. The forward-checking solver checks every cage.

## Model

| member | source | states |
|---|---|---|
| Grids.Put | test.py:85-88 | writing a cell keeps the board's shape, sets that cell and leaves every other cell as it was |
| Grids.PutFillsOneCell | test.py:84-86 | filling an empty cell with a non-zero value removes exactly one empty cell, the measure that makes every search terminate |
| Grids.EmptyGrid | test.py:94 | the starting board is N x N with every cell empty |
| Grids.FirstEmpty | test.py:168-175 | returns an on-board empty cell with every earlier cell in row-major order filled, and returns none exactly when the board has no empty cell |
| Grids.IsValid | test.py:71-75 | accepts a value exactly when it occurs neither in the cell's row nor in its column |
| Grids.PlacementKeepsPartialLatin | test.py:84-85 | placing a value in 1..N that passes the row/column test in an empty cell keeps the board free of repeats |
| Grids.Range | test.py:78 | the allowed numbers are exactly 1..N, N of them |
| Grids.LatinRowsAndColumnsArePermutations | test.py:93-99 | in a full board without repeats every row and every column holds each of 1..N exactly once |
| Cages.FindValues | test.py:128-129 | the cells' values with every 0 filtered out, in cell order (`NonZero` of the cell values); one value per cell exactly when no cell of the cage is empty |
| Cages.NonZeroCounts | test.py:128-129 | the filter keeps each non-zero value as often as it occurs among the cells and drops every 0 |
| Cages.CalculateTarget | test.py:14-39 | fails only for `-` or `/`: on an empty cage (max of nothing), or for `/` on two or more cells one of which holds 0 |
| Cages.TargetBounds | test.py:14-39 | on positive values the target never fails: a sum is at least the cage size, a product at least 1, a difference at least 0, a quotient at least 1 |
| Cages.OneCellTarget | test.py:25-39 | whatever the operation, a one-cell cage's target is its cell's value |
| Cages.TwoCellTargets | test.py:25-38 | a two-cell target does not depend on the order of the cells; for `-` it is the absolute difference, for `/` target times the smaller value is the larger one |
| Cages.TargetAcceptsItsBoard | test.py:65 | round trip: the target computed from positive values is accepted by the evaluator on those values, for `+`/`*` cages and for cages of at most two cells |
| Cages.ValidateSubPair | test.py:155-159 | a complete two-cell `-` cage accepts exactly when the difference of the larger and smaller value is the target, whatever the order of the values |
| Cages.ValidateDivPair | test.py:160-164 | a complete two-cell `/` cage accepts exactly when the larger value is the target times the smaller, whatever the order of the values |
| Cages.Validate | test.py:147-165 | a complete `+` or `*` cage is accepted exactly when its sum or product equals the target, a partial one exactly when it is at most the target; a complete one-cell cage of any operation accepts exactly its target; a partial `-` or `/` cage is always accepted; a complete two-cell `/` cage accepts exactly when the larger value is the target times the smaller |
| Cages.FoundBelowSolution | test.py:128-129 | the values found on a board that a positive board extends add and multiply to no more than those found on the extension |
| Cages.PartialCheckSound | test.py:147-154 | if a board of positive values satisfies a cage, every board it extends passes the evaluator on that cage, so the `<=` checks never prune a solution |
| Cages.SolverStep | test.py:113-116 | when the cages containing the placed cell accept and the recursive search satisfied every cage still open after the placement, every cage open before it is satisfied too |
| Generator.Fill | test.py:77-91 | on success no cell is empty, placed values are kept, and a repeat-free start gives a Latin square; on failure the board is unchanged; a full board succeeds unchanged; a 1 x 1 board always succeeds |
| Generator.GenerateKenKen | test.py:93-99 | any board returned is an N x N Latin square, and N = 1 gives [[1]] |
| Partition.Neighbours | test.py:55-56 | lists exactly the on-board, unvisited cells that share a side with the last cell |
| Partition.GrowCage | test.py:50-62 | the cage is a walk of 1..cage_size distinct on-board cells from the start cell, each cell sharing a side with the one before it; none was visited before, and exactly these cells are added to visited; a walk shorter than cage_size ends at a cell with no unvisited on-board neighbour |
| Partition.ChooseOp | test.py:64 | a cage whose chosen size exceeds 2 gets `+` or `*` |
| Partition.AddCage | test.py:66 | appending a new well-formed cage over unvisited cells keeps the cages disjoint, well formed and satisfied, with visited equal to their cells |
| Partition.NewCage | test.py:48-66 | growing and appending a cage from an unvisited cell keeps that invariant and marks the start cell visited |
| Partition.BuiltIsPartition | test.py:46-48 | once every cell has been scanned the cages cover the board, every cell in exactly one cage |
| Partition.GenerateRandomCages | test.py:42-68 | the cages partition the board, each has 1..N distinct connected cells, `-`/`/` cages have at most two, each target is calculate_target's, and the board satisfies every cage |
| Backtracking.FindCage | test.py:122-126 | returns none exactly when no cage contains the cell; otherwise the first cage in list order that contains it |
| Backtracking.FirstCageAccepts | test.py:137-140 | true exactly when the first cage containing the cell accepts the values it holds |
| Backtracking.IsSafe | test.py:131-144 | safe exactly when the number is absent from the row and column and the first cage containing the cell accepts it placed; the board is left unchanged when the cell was empty |
| Backtracking.FirstCageOnly | test.py:137-140 | with two overlapping cages on one cell, the probe accepts a value that the second cage rejects |
| Backtracking.SolveKenken | test.py:106-120 | on success no cell is empty, placed values are kept, a repeat-free start gives a Latin square, and with disjoint cages every cage that had an empty cell is satisfied; on failure the board is unchanged |
| Backtracking.TryNumber | test.py:114-119 | placing a number that `is_safe_kenken` accepts at the empty cell and solving on leaves a full board extending the start with the same Latin and cage guarantees; when the recursive solve fails the cell is reset to 0 and the board is exactly as it came in |
| Csp.CageDomain | test.py:195-200 | a `*` cage gives the values of 1..N that divide its target, any other cage all of 1..N |
| Csp.FullDomains | test.py:191 | every coordinate of the board, and nothing else, starts with the domain 1..N |
| Csp.ApplyCells | test.py:194-200 | the listed cells get the new domain and every other domain is unchanged |
| Csp.ApplyCages | test.py:193-200 | after the cages are applied in order, a cell's domain is that of the last cage containing it; cells in no cage keep their domain |
| Csp.CreateDomains | test.py:186-201 | every board cell has a domain within 1..N, decided by the last cage containing it, and 1..N when no cage contains it |
| Csp.MulCageValueDivides | test.py:198 | every value of a satisfied `*` cage divides its target |
| Csp.DomainsKeepSolutions | test.py:186-201 | on a Latin square satisfying every cage, each cell's value lies in its domain, so domain creation never discards a solution |
| Csp.CspCageFails | test.py:222-256 | the elif chain rejects exactly what validate_cage_operation rejects |
| Csp.CageChecksFrom | test.py:218-256 | true exactly when every cage from the given index on that contains the cell accepts |
| Csp.IsValidAssignment | test.py:203-260 | valid exactly when the value is absent from the row and column and every cage containing the cell accepts it placed; the assignment is left unchanged when the cell was empty |
| Csp.UpdateFrom | test.py:270-272 | from the given index on, the value is removed from the row's and the column's domains and every other domain is unchanged |
| Csp.UpdateDomains | test.py:262-274 | the value is removed from every domain in the cell's row and column; all other domains and the set of cells are unchanged |
| Csp.UpdateNarrows | test.py:262-274 | every domain after the update is a subset of the one before, the value is gone from the whole row and column, and domains within 1..N stay within it |
| Csp.SolveCsp | test.py:285-306 | on success no cell is empty, placed values are kept and come from the cells' domains, a repeat-free start with domains in 1..N gives a Latin square, and every cage that had an empty cell is satisfied; on failure the assignment is unchanged |
| Csp.TryValue | test.py:296-304 | placing a domain value that `is_valid_assignment` accepts and solving on with the narrowed domains leaves a full assignment extending the start, values within the domains, every open cage satisfied; on failure the cell is reset to 0 and the assignment is exactly as it came in |
| Csp.SolveKenkenCsp | test.py:308-317 | any grid returned is an N x N Latin square that satisfies every non-empty cage, each value within its cell's domain |
| RoundTrip.PruningKeeps | test.py:147-154 | every board below the generating square passes the evaluator on every cage cut from it |
| RoundTrip.MakePuzzle | test.py:42-68 | cages cut from a generated square partition the board and are satisfied by it; the square's values lie in their domains and every board below it passes every cage; N = 1 always yields a puzzle |
| RoundTrip.SolveBoth | test.py:106-120 | on a blank board and cages cut from a Latin square, each solver's result is a Latin square satisfying every cage |
| RoundTrip.GenerateAndSolve | test.py:324-355 | the board either solver returns for a generated puzzle is a Latin square satisfying every cage of a partition of the board |

## Left out

- The example driver (test.py:319-366), which prints boards and times the solvers, is I/O and is not modelled. `RoundTrip` composes the same calls without it.
- The `random` module is not modelled as a generator of numbers. Every draw is an arbitrary value in its range, so no particular distribution or seed is represented.
- Floating-point arithmetic is replaced by exact rationals. A `/` target such as 3 / 2 compares exactly, where Python compares floats.
- Completeness is not proved. `fill_KenKen` draws N values with replacement and may give up on a board that can be filled, so `Generator.GenerateKenKen` may return none for N >= 2. Neither solver is proved to find a solution when one exists.
- Generator.Fill: requires a board of exactly N rows of N cells (`IsGrid`). The source reads only indices below N, so it would also run on a board with extra rows or longer rows, and raises IndexError only on a shorter one.
- Backtracking.SolveKenken: requires every empty cell to lie in some cage, because otherwise `find_cage` returns None and, as soon as some number passes the row and column test at that cell, `find_values` raises AttributeError on `None.cells`; when no number passes, `solve_kenken` returns False normally. It also requires cage cells to lie on the board: an off-board index raises IndexError, and a negative one would wrap around in Python.
- Backtracking.SolveKenken: its cage guarantee is stated only for pairwise disjoint cages, because `is_safe_kenken` checks only the first cage containing the cell (see `Backtracking.FirstCageOnly`).
- Backtracking.TryNumber: shares the cage guarantee of `Backtracking.SolveKenken` and so states it only for pairwise disjoint cages.
- Csp.SolveKenkenCsp: requires cage cells to lie on the board. Outside it, `assignment.get` yields None and the value list keeps it: a `+` or `*` cage raises TypeError in its arithmetic, so does a complete `/` cage of two or more cells and a complete `-` cage whose first two values include the None, and a partial `-` or `/` cage does no arithmetic and accepts.
- Csp.SolveCsp: the Latin-square conclusion assumes every domain lies within 1..N. This always holds for the domains `create_domains` builds.
- Csp.SolveCsp: the order in which a Python set of small integers is iterated is not modelled; any order is allowed.
- Operation strings other than `+ - * /` are not modelled. The operation is a four-valued datatype, so the fall-through branches of `validate_cage_operation` and `create_domains` for unknown strings do not arise.
- `Cage` (test.py:5-9) is modelled as an immutable datatype. Cells are (row, column) pairs, and the target is a rational.

=== FILE: backtracking.dfy ===
/** The plain backtracking solver: solve_kenken with find_cage, find_values,
    is_safe_kenken and find_unassigned_location. `solve_kenken` mutates the
    board in place; here each call returns the board as it leaves it. */
module Backtracking {
  import opened Grids
  import opened Cages

  /** find_cage: the first cage of the list that contains x, or None. */
  function FindCage(cages: seq<Cage>, x: Cell): (r: Option<Cage>)
    ensures r.None? <==> !Covered(cages, x)
    ensures r.Some? ==> exists k :: FirstCageOf(cages, x, k) && cages[k] == r.value
  {
    FindCageFrom(cages, x, 0)
  }

  /** Cage k contains x and no earlier cage does. */
  ghost predicate FirstCageOf(cages: seq<Cage>, x: Cell, k: int) {
    0 <= k < |cages| && x in cages[k].cells && forall j :: 0 <= j < k ==> x !in cages[j].cells
  }

  function FindCageFrom(cages: seq<Cage>, x: Cell, i: nat): (r: Option<Cage>)
    requires i <= |cages|
    requires forall j :: 0 <= j < i ==> x !in cages[j].cells
    ensures r.None? <==> forall k :: i <= k < |cages| ==> x !in cages[k].cells
    ensures r.Some? ==> exists k :: FirstCageOf(cages, x, k) && cages[k] == r.value
    decreases |cages| - i
  {
    if i == |cages| then None
    else if x in cages[i].cells then
      assert FirstCageOf(cages, x, i);
      Some(cages[i])
    else FindCageFrom(cages, x, i + 1)
  }

  /** is_safe_kenken: num must be absent from x's row and column; then it is
      written into x, the first cage containing x is checked by the evaluator
      on its non-empty values, and x is set back to 0. The verdict is true
      exactly when num is absent from the lines and that cage accepts; the
      board comes back unchanged whenever x was empty. */
  function IsSafe(g: Grid, x: Cell, num: int, cages: seq<Cage>): (p: Probe)
    requires IsGrid(g, |g|) && InBounds(x, |g|) && CagesInBounds(cages, |g|)
    requires Covered(cages, x)
    ensures p.grid == g || p.grid == Put(g, x, 0)
    ensures At(g, x) == 0 ==> p.grid == g
    ensures p.safe <==>
      && (forall i :: 0 <= i < |g| ==> g[x.r][i] != num && g[i][x.c] != num)
      && (forall k :: FirstCageOf(cages, x, k) ==> Accepts(Put(g, x, num), cages[k]))
  {
    if !IsValid(g, x, num, |g|) then Probe(false, g)
    else
      var verdict := FirstCageAccepts(Put(g, x, num), x, cages);
      PutPut(g, x, num, 0);
      PutSame(g, x);
      Probe(verdict, Put(Put(g, x, num), x, 0))
  }

  /** The cage half of is_safe_kenken: the first cage containing x accepts
      the non-empty values it has on h. */
  function FirstCageAccepts(h: Grid, x: Cell, cages: seq<Cage>): (ok: bool)
    requires IsGrid(h, |h|) && CagesInBounds(cages, |h|) && Covered(cages, x)
    ensures ok <==> forall k :: FirstCageOf(cages, x, k) ==> Accepts(h, cages[k])
  {
    var cage := FindCage(cages, x).value;
    FirstCageFacts(h, cages, x, cage);
    Validate(cage.op, FindValues(h, cage.cells), cage.target, |cage.cells|)
  }

  /** The first cage containing x is the only one so named, and its cells lie on h. */
  lemma FirstCageFacts(h: Grid, cages: seq<Cage>, x: Cell, cage: Cage)
    requires IsGrid(h, |h|) && CagesInBounds(cages, |h|)
    requires exists k :: FirstCageOf(cages, x, k) && cages[k] == cage
    ensures |cage.cells| >= 1 && AllValid(h, cage.cells)
    ensures forall k :: FirstCageOf(cages, x, k) ==> cages[k] == cage
  {
    var k0 :| FirstCageOf(cages, x, k0) && cages[k0] == cage;
    assert x in cage.cells;
    forall y | y in cage.cells
      ensures ValidCell(h, y)
    {
      assert InBounds(y, |h|);
    }
  }

  /** is_safe_kenken consults only the first cage containing the cell. On a
      1 x 1 board covered by two cages, + 1 and + 2, it accepts 1, and the
      board [[1]] it then completes violates the second cage; the solver's
      cage guarantee therefore assumes the cages do not overlap. */
  lemma FirstCageOnly()
    ensures var cages := [Cage([Cell(0, 0)], Add, 1.0), Cage([Cell(0, 0)], Add, 2.0)];
      && Covered(cages, Cell(0, 0))
      && IsSafe([[0]], Cell(0, 0), 1, cages).safe
      && !CageSatisfied([[1]], cages[1])
  {
    var cages := [Cage([Cell(0, 0)], Add, 1.0), Cage([Cell(0, 0)], Add, 2.0)];
    assert FirstCageOf(cages, Cell(0, 0), 0) && Cell(0, 0) in cages[0].cells;
    assert [[0]][0 := [1]] == [[1]];
    assert FindValues([[1]], [Cell(0, 0)]) == [1];
    assert Sum([1]) == 1;
  }

  /** Every empty cell of g lies in some cage (otherwise is_safe_kenken would
      ask a missing cage for its operation). */
  ghost predicate EmptiesCaged(g: Grid, n: nat, cages: seq<Cage>)
    requires IsGrid(g, n)
  {
    forall r, c :: 0 <= r < n && 0 <= c < n && g[r][c] == 0 ==> Covered(cages, Cell(r, c))
  }

  /** What a successful solve_kenken call from g leaves behind: no cell is
      empty, every value of g is kept, a repeat-free start gives a Latin
      square, and when no two cages share a cell every cage that had an
      empty cell is satisfied. */
  ghost predicate SolvedFrom(g: Grid, res: Grid, cages: seq<Cage>)
    requires IsGrid(g, |g|) && IsGrid(res, |g|)
  {
    && NoEmpty(res, |g|) && Extends(g, res, |g|)
    && (PartialLatin(g, |g|) ==> Latin(res, |g|))
    && (CagesDisjoint(cages) ==>
         forall k :: 0 <= k < |cages| && !Filled(g, cages[k].cells) ==> CageSatisfied(res, cages[k]))
  }

  /** solve_kenken: at the first empty cell in row-major order try 1..n in
      turn until one of them leads to a solution. On success no cell is
      empty, every value already placed is kept, the board is a Latin square
      when it started as a partial one, and (when no two cages share a cell)
      every cage that still had an empty cell is satisfied. On failure the
      board is returned exactly as it came in. */
  method SolveKenken(g: Grid, cages: seq<Cage>) returns (ok: bool, res: Grid)
    requires IsGrid(g, |g|) && CagesInBounds(cages, |g|) && EmptiesCaged(g, |g|, cages)
    ensures IsGrid(res, |g|)
    ensures !ok ==> res == g
    ensures ok ==> SolvedFrom(g, res, cages)
    decreases Zeros(g), 1
  {
    var n := |g|;
    var first := FirstEmpty(g, n);
    if first.None? {
      forall k, y | 0 <= k < |cages| && y in cages[k].cells
        ensures ValidCell(g, y) && At(g, y) != 0
      {
        assert InBounds(y, n);
      }
      return true, g;
    }
    var x := first.value;
    for num := 1 to n + 1
    {
      ok, res := TryNumber(g, cages, x, num);
      if ok {
        return;
      }
    }
    return false, g;
  }

  /** One pass of the loop of solve_kenken: if is_safe_kenken accepts num
      at the empty cell x, place it and solve the rest, putting 0 back when
      that fails. */
  method TryNumber(g: Grid, cages: seq<Cage>, x: Cell, num: int) returns (ok: bool, res: Grid)
    requires IsGrid(g, |g|) && CagesInBounds(cages, |g|) && EmptiesCaged(g, |g|, cages)
    requires InBounds(x, |g|) && At(g, x) == 0 && 1 <= num <= |g|
    ensures IsGrid(res, |g|)
    ensures !ok ==> res == g
    ensures ok ==> SolvedFrom(g, res, cages)
    decreases Zeros(g), 0
  {
    var n := |g|;
    assert Covered(cages, x);
    var probe := IsSafe(g, x, num, cages);
    if !probe.safe {
      return false, g;
    }
    var cur := Put(g, x, num);
    PutFillsOneCell(g, x, num);
    var sub, after := SolveKenken(cur, cages);
    if !sub {
      PutPut(g, x, num, 0);
      PutSame(g, x);
      return false, Put(after, x, 0);
    }
    PutExtends(g, n, x, num);
    if PartialLatin(g, n) {
      PlacementKeepsPartialLatin(g, n, x, num);
    }
    if CagesDisjoint(cages) {
      forall k | 0 <= k < |cages| && x in cages[k].cells
        ensures Accepts(cur, cages[k])
      {
        assert FirstCageOf(cages, x, k);
      }
      SolverStep(g, cur, after, n, x, num, cages);
    }
    return true, after;
  }
}

=== FILE: cage.dfy ===
/** Cages, their target arithmetic (calculate_target) and the cage
    constraint evaluator (validate_cage_operation) shared by both solvers.
    Targets are exact rationals: `calculate_target`'s `/` yields a float, and for the
    small integers on a board float and rational comparison agree. */
module Cages {
  import opened Grids

  datatype Op = Add | Sub | Mul | Div

  /** A cage: its cells in the order they were added, an operation and a target. */
  datatype Cage = Cage(cells: seq<Cell>, op: Op, target: real)

  /** Why calculate_target can fail: max()/min() of no values, or a division by zero. */
  datatype TargetError = NoValues | DivisionByZero

  datatype Result<T> = Ok(value: T) | Failure(error: TargetError)

  // ---------------------------------------------------------------------
  // Arithmetic over value lists.

  function Sum(s: seq<int>): int {
    if |s| == 0 then 0 else s[0] + Sum(s[1..])
  }

  function Product(s: seq<int>): int {
    if |s| == 0 then 1 else s[0] * Product(s[1..])
  }

  function Max(s: seq<int>): (m: int)
    requires |s| > 0
    ensures m in s && forall v :: v in s ==> v <= m
  {
    if |s| == 1 then s[0]
    else
      var rest := Max(s[1..]);
      assert forall v :: v in s ==> v == s[0] || v in s[1..];
      if s[0] >= rest then s[0] else rest
  }

  function Min(s: seq<int>): (m: int)
    requires |s| > 0
    ensures m in s && forall v :: v in s ==> m <= v
  {
    if |s| == 1 then s[0]
    else
      var rest := Min(s[1..]);
      assert forall v :: v in s ==> v == s[0] || v in s[1..];
      if s[0] <= rest then s[0] else rest
  }

  function Abs(v: int): nat {
    if v < 0 then -v else v
  }

  // ---------------------------------------------------------------------
  // Reading a cage's cells off the board.

  /** Every cell of the list is on the board and holds a value. */
  ghost predicate Filled(g: Grid, cells: seq<Cell>) {
    forall x :: x in cells ==> ValidCell(g, x) && At(g, x) != 0
  }

  /** The board's values at the cells, in cell order (the list calculate_target builds). */
  function CellValues(g: Grid, cells: seq<Cell>): (vs: seq<int>)
    requires AllValid(g, cells)
    ensures |vs| == |cells|
    ensures forall i :: 0 <= i < |cells| ==> vs[i] == At(g, cells[i])
  {
    if |cells| == 0 then [] else [At(g, cells[0])] + CellValues(g, cells[1..])
  }

  /** The entries of s other than 0, in their order in s. */
  function NonZero(s: seq<int>): (r: seq<int>)
    ensures 0 !in r && |r| <= |s|
  {
    if |s| == 0 then []
    else (if s[0] != 0 then [s[0]] else []) + NonZero(s[1..])
  }

  /** NonZero keeps every non-zero entry as often as it occurs and drops every 0. */
  lemma {:induction false} NonZeroCounts(s: seq<int>)
    ensures multiset(NonZero(s)) == multiset(s)[0 := 0]
  {
    if |s| > 0 {
      NonZeroCounts(s[1..]);
      assert s == [s[0]] + s[1..];
    }
  }

  /** find_values: the non-empty values of the cells, in cell order. It returns
      every value exactly when no cell of the cage is empty. */
  function FindValues(g: Grid, cells: seq<Cell>): (vs: seq<int>)
    requires AllValid(g, cells)
    ensures vs == NonZero(CellValues(g, cells))
    ensures 0 !in vs
    ensures |vs| <= |cells|
    ensures |vs| == |cells| <==> Filled(g, cells)
    ensures Filled(g, cells) ==> vs == CellValues(g, cells)
  {
    if |cells| == 0 then []
    else
      var x := cells[0];
      assert forall y :: y in cells ==> y == x || y in cells[1..];
      (if At(g, x) != 0 then [At(g, x)] else []) + FindValues(g, cells[1..])
  }

  // ---------------------------------------------------------------------
  // calculate_target

  /** The target of a cage over the board's values: the sum for +, the
      product for *, and for - and / the single value of a one-cell cage or
      max - min, max / min otherwise. The Python code raises on max()/min() of an
      empty list and on a division by zero; those are the two failures. */
  function CalculateTarget(g: Grid, cells: seq<Cell>, op: Op): (r: Result<real>)
    requires AllValid(g, cells)
    ensures r.Failure? ==> op == Sub || op == Div
    ensures |cells| == 0 ==> (r.Failure? <==> op == Sub || op == Div)
    ensures r.Failure? && |cells| > 0 ==> op == Div && |cells| > 1 && 0 in CellValues(g, cells)
  {
    var values := CellValues(g, cells);
    match op
    case Mul => Ok(Product(values) as real)
    case Add => Ok(Sum(values) as real)
    case Sub =>
      if |values| == 0 then Failure(NoValues)
      else if |values| != 1 then Ok((Max(values) - Min(values)) as real)
      else Ok(values[0] as real)
    case Div =>
      if |values| == 0 then Failure(NoValues)
      else if |values| != 1 then
        if Min(values) == 0 then Failure(DivisionByZero)
        else Ok((Max(values) as real) / (Min(values) as real))
      else Ok(values[0] as real)
  }

  // ---------------------------------------------------------------------
  // validate_cage_operation

  /** Whether the values currently placed in a cage of cellCount cells are
      consistent with its rule. A complete cage (as many values as cells)
      must meet the target exactly; a partial + or * cage must not exceed it;
      a partial - or / cage is always accepted. For - the first two values
      are compared, for / the largest and the smallest. */
  function Validate(op: Op, values: seq<int>, target: real, cellCount: nat): (ok: bool)
    requires cellCount >= 1 && 0 !in values
    ensures op == Add ==>
      (ok <==> if |values| == cellCount then Sum(values) as real == target else Sum(values) as real <= target)
    ensures op == Mul ==>
      (ok <==> if |values| == cellCount then Product(values) as real == target else Product(values) as real <= target)
    ensures |values| == cellCount == 1 ==> (ok <==> values[0] as real == target)
    ensures |values| != cellCount && (op == Sub || op == Div) ==> ok
    ensures |values| == cellCount == 2 && op == Div ==>
      (ok <==> Max(values) as real == target * Min(values) as real)
  {
    assert |values| == 1 ==> Sum(values) == values[0] && Product(values) == values[0];
    PairQuotient(values, target);
    match op
    case Add =>
      if |values| == cellCount then Sum(values) as real == target else Sum(values) as real <= target
    case Mul =>
      if |values| == cellCount then Product(values) as real == target else Product(values) as real <= target
    case Sub =>
      if |values| == cellCount then
        if cellCount == 1 then values[0] as real == target
        else Abs(values[0] - values[1]) as real == target
      else true
    case Div =>
      if |values| == cellCount then
        if cellCount == 1 then values[0] as real == target
        else (Max(values) as real) / (Min(values) as real) == target
      else true
  }

  lemma PairQuotient(values: seq<int>, t: real)
    requires 0 !in values
    ensures |values| == 2 ==> Min(values) != 0
    ensures |values| == 2 ==>
      ((Max(values) as real) / (Min(values) as real) == t <==> Max(values) as real == t * Min(values) as real)
  {
    if |values| == 2 {
      PairExtremes(values[0], values[1]);
      assert values == [values[0], values[1]];
      QuotientIff(Max(values) as real, Min(values) as real, t);
    }
  }

  lemma QuotientIff(hi: real, lo: real, t: real)
    requires lo != 0.0
    ensures hi / lo == t <==> hi == t * lo
  {
    QuotientTimesDivisor(hi, lo);
    QuotientTimesDivisor(t * lo, lo);
    assert t * lo / lo == t;
  }

  /** The evaluator accepts the values the cage currently holds on h. */
  ghost predicate Accepts(h: Grid, cage: Cage) {
    && |cage.cells| >= 1
    && AllValid(h, cage.cells)
    && Validate(cage.op, FindValues(h, cage.cells), cage.target, |cage.cells|)
  }

  /** Every cell of the cage is filled and the cage's rule holds on its values. */
  ghost predicate CageSatisfied(h: Grid, cage: Cage) {
    Filled(h, cage.cells) && Accepts(h, cage)
  }

  /** Some cage of the list contains x. */
  ghost predicate Covered(cages: seq<Cage>, x: Cell) {
    exists k :: 0 <= k < |cages| && x in cages[k].cells
  }

  /** No cell belongs to two different cages of the list. */
  ghost predicate CagesDisjoint(cages: seq<Cage>) {
    forall k1, k2, x :: 0 <= k1 < |cages| && 0 <= k2 < |cages| && x in cages[k1].cells && x in cages[k2].cells ==> k1 == k2
  }

  /** Every cell of every cage lies on the N x N board. */
  predicate CagesInBounds(cages: seq<Cage>, n: nat) {
    forall k, x :: 0 <= k < |cages| && x in cages[k].cells ==> InBounds(x, n)
  }

  // ---------------------------------------------------------------------
  // Properties of the evaluator.

  /** A complete two-cell - cage accepts exactly when the difference of its
      values, taken in either order, is the target. */
  lemma ValidateSubPair(a: int, b: int, t: real)
    requires a != 0 && b != 0
    ensures Validate(Sub, [a, b], t, 2) <==> (if a >= b then a - b else b - a) as real == t
    ensures Validate(Sub, [a, b], t, 2) == Validate(Sub, [b, a], t, 2)
  {
  }

  /** A complete two-cell / cage accepts exactly when the larger value is the
      target times the smaller one, whichever order the values come in. */
  lemma ValidateDivPair(a: int, b: int, t: real)
    requires a > 0 && b > 0
    ensures Validate(Div, [a, b], t, 2) <==> (if a >= b then a else b) as real == t * (if a >= b then b else a) as real
    ensures Validate(Div, [a, b], t, 2) == Validate(Div, [b, a], t, 2)
  {
    var hi, lo := (if a >= b then a else b) as real, (if a >= b then b else a) as real;
    assert Max([a, b]) as real == hi && Min([a, b]) as real == lo;
    assert Max([b, a]) as real == hi && Min([b, a]) as real == lo;
    assert hi / lo == t <==> hi == t * lo;
  }

  lemma {:induction false} SumAtLeastLength(s: seq<int>)
    requires forall i :: 0 <= i < |s| ==> s[i] >= 1
    ensures Sum(s) >= |s|
  {
    if |s| > 0 {
      SumAtLeastLength(s[1..]);
    }
  }

  lemma {:induction false} ProductPositive(s: seq<int>)
    requires forall i :: 0 <= i < |s| ==> s[i] >= 1
    ensures Product(s) >= 1
  {
    if |s| > 0 {
      ProductPositive(s[1..]);
      MulMono(s[0], Product(s[1..]));
    }
  }

  lemma MulMono(a: int, b: int)
    requires a >= 1 && b >= 1
    ensures a * b >= b
  {
  }

  lemma QuotientAtLeastOne(hi: real, lo: real)
    requires 0.0 < lo <= hi
    ensures hi / lo >= 1.0
  {
  }

  lemma PositiveValues(g: Grid, cells: seq<Cell>)
    requires AllValid(g, cells)
    requires forall x :: x in cells ==> At(g, x) >= 1
    ensures forall i :: 0 <= i < |cells| ==> CellValues(g, cells)[i] >= 1
  {
    var values := CellValues(g, cells);
    forall i | 0 <= i < |cells|
      ensures values[i] >= 1
    {
      assert cells[i] in cells;
    }
  }

  /** On a board of positive values no target fails, a sum is at least the cage
      size, a product is positive, a difference is non-negative and a quotient
      is at least 1. */
  lemma TargetBounds(g: Grid, cells: seq<Cell>, op: Op)
    requires AllValid(g, cells) && |cells| >= 1
    requires forall x :: x in cells ==> At(g, x) >= 1
    ensures CalculateTarget(g, cells, op).Ok?
    ensures op == Add ==> CalculateTarget(g, cells, op).value >= |cells| as real
    ensures op == Mul ==> CalculateTarget(g, cells, op).value >= 1.0
    ensures op == Sub ==> CalculateTarget(g, cells, op).value >= 0.0
    ensures op == Div ==> CalculateTarget(g, cells, op).value >= 1.0
  {
    var values := CellValues(g, cells);
    PositiveValues(g, cells);
    match op
    case Add =>
      SumAtLeastLength(values);
    case Mul =>
      ProductPositive(values);
    case Sub =>
    case Div =>
      assert Min(values) >= 1;
      if |values| > 1 {
        QuotientAtLeastOne(Max(values) as real, Min(values) as real);
      }
  }

  lemma QuotientTimesDivisor(hi: real, lo: real)
    requires lo != 0.0
    ensures hi / lo * lo == hi
  {
  }

  lemma PairExtremes(a: int, b: int)
    ensures Max([a, b]) == Max([b, a]) == (if a >= b then a else b)
    ensures Min([a, b]) == Min([b, a]) == (if a >= b then b else a)
  {
    assert [a, b][1..] == [b] && [b, a][1..] == [a];
  }

  /** The targets of a two-cell cage: |a - b| for -, and for / a quotient whose
      product with the smaller value is the larger one; neither depends on the
      order of the two cells. */
  lemma TwoCellTargets(g: Grid, x: Cell, y: Cell, op: Op)
    requires ValidCell(g, x) && ValidCell(g, y) && At(g, x) >= 1 && At(g, y) >= 1
    ensures CalculateTarget(g, [x, y], op) == CalculateTarget(g, [y, x], op)
    ensures op == Sub ==> CalculateTarget(g, [x, y], op) == Ok(Abs(At(g, x) - At(g, y)) as real)
    ensures op == Div ==>
      var a, b := At(g, x), At(g, y);
      CalculateTarget(g, [x, y], op).Ok?
      && (if a >= b then a else b) as real == CalculateTarget(g, [x, y], op).value * (if a >= b then b else a) as real
  {
    var a, b := At(g, x), At(g, y);
    assert CellValues(g, [x, y]) == [a, b];
    assert CellValues(g, [y, x]) == [b, a];
    PairExtremes(a, b);
    PairTargets(a, b, op);
    if op == Div {
      QuotientTimesDivisor(Max([a, b]) as real, Min([a, b]) as real);
    }
  }

  /** The target arithmetic of calculate_target on the value pairs [a, b] and [b, a]. */
  lemma PairTargets(a: int, b: int, op: Op)
    ensures op == Add ==> Sum([a, b]) == Sum([b, a])
    ensures op == Mul ==> Product([a, b]) == Product([b, a])
  {
    if op == Add {
      assert Sum([a, b]) == a + Sum([b]) && Sum([b, a]) == b + Sum([a]);
    } else if op == Mul {
      assert Product([a, b]) == a * Product([b]) && Product([b, a]) == b * Product([a]);
    }
  }

  /** Whatever the operation, a one-cell cage's target is the cell's value. */
  lemma OneCellTarget(g: Grid, x: Cell, op: Op)
    requires ValidCell(g, x)
    ensures CalculateTarget(g, [x], op) == Ok(At(g, x) as real)
  {
    assert CellValues(g, [x]) == [At(g, x)];
    assert Sum([At(g, x)]) == At(g, x) && Product([At(g, x)]) == At(g, x);
  }

  /** Round trip: the target computed from a board of positive values is
      accepted by the evaluator on those same values, for every cage whose
      operation is + or * or whose size is at most two. */
  lemma TargetAcceptsItsBoard(g: Grid, cells: seq<Cell>, op: Op)
    requires AllValid(g, cells) && |cells| >= 1
    requires forall x :: x in cells ==> At(g, x) >= 1
    requires op == Add || op == Mul || |cells| <= 2
    ensures CalculateTarget(g, cells, op).Ok?
    ensures Validate(op, FindValues(g, cells), CalculateTarget(g, cells, op).value, |cells|)
  {
    TargetBounds(g, cells, op);
    var values := CellValues(g, cells);
    assert FindValues(g, cells) == values;
    if |cells| == 2 && op == Sub {
      assert values == [values[0], values[1]];
      assert Max(values) - Min(values) == Abs(values[0] - values[1]);
    }
  }

  // ---------------------------------------------------------------------
  // Pruning is sound: a partial board below a solution is never rejected.

  lemma SumProductCons(v: int, s: seq<int>)
    ensures Sum([v] + s) == v + Sum(s) && Product([v] + s) == v * Product(s)
  {
    assert ([v] + s)[1..] == s;
  }

  lemma MulLe(a: int, b: int, c: int, d: int)
    requires 1 <= a <= c && 1 <= b <= d
    ensures 1 <= a * b <= c * d
  {
    assert a * b <= c * b;
    assert c * b <= c * d;
  }

  /** The values found on g never add up, or multiply up, to more than those
      found on a board h of positive values that agrees with g on g's filled cells. */
  lemma {:induction false} FoundBelowSolution(g: Grid, h: Grid, cells: seq<Cell>)
    requires AllValid(g, cells) && AllValid(h, cells)
    requires forall x :: x in cells ==> At(h, x) >= 1 && (At(g, x) != 0 ==> At(g, x) == At(h, x))
    ensures Sum(FindValues(g, cells)) <= Sum(FindValues(h, cells))
    ensures 1 <= Product(FindValues(g, cells)) <= Product(FindValues(h, cells))
  {
    if |cells| > 0 {
      var x, rest := cells[0], cells[1..];
      assert x in cells;
      assert forall y :: y in rest ==> y in cells;
      FoundBelowSolution(g, h, rest);
      var fg, fh := FindValues(g, rest), FindValues(h, rest);
      SumProductCons(At(h, x), fh);
      assert FindValues(h, cells) == [At(h, x)] + fh;
      if At(g, x) != 0 {
        assert FindValues(g, cells) == [At(g, x)] + fg;
        SumProductCons(At(g, x), fg);
        MulLe(At(g, x), Product(fg), At(h, x), Product(fh));
      } else {
        assert FindValues(g, cells) == [] + fg == fg;
        MulLe(1, Product(fg), At(h, x), Product(fh));
      }
    }
  }

  /** If a complete board h of positive values satisfies a cage, then every
      board g that h extends passes the evaluator on that cage: the partial
      checks of + and * (sum or product not above the target) never reject a
      branch that leads to a solution. */
  lemma PartialCheckSound(g: Grid, h: Grid, cage: Cage)
    requires CageSatisfied(h, cage) && AllValid(g, cage.cells)
    requires forall x :: x in cage.cells ==> At(h, x) >= 1 && (At(g, x) != 0 ==> At(g, x) == At(h, x))
    ensures Validate(cage.op, FindValues(g, cage.cells), cage.target, |cage.cells|)
  {
    var cells := cage.cells;
    FoundBelowSolution(g, h, cells);
    if Filled(g, cells) {
      assert FindValues(g, cells) == CellValues(g, cells) == CellValues(h, cells) == FindValues(h, cells);
    }
  }

  // ---------------------------------------------------------------------
  // The step both solvers take: completing a cage keeps it satisfied.

  /** If the cage was accepted on a board where all its cells were filled,
      then it stays satisfied on every extension of that board. */
  lemma CompletedCageStaysSatisfied(cur: Grid, h: Grid, n: nat, cage: Cage)
    requires IsGrid(cur, n) && IsGrid(h, n) && Extends(cur, h, n)
    requires forall x :: x in cage.cells ==> InBounds(x, n)
    requires Filled(cur, cage.cells) && Accepts(cur, cage)
    ensures CageSatisfied(h, cage)
  {
    assert CellValues(h, cage.cells) == CellValues(cur, cage.cells);
  }

  /** If a cage had an empty cell on g and has none once x is filled, then x
      is one of its cells. */
  lemma CompletedByPut(g: Grid, n: nat, x: Cell, v: int, cells: seq<Cell>)
    requires IsGrid(g, n) && InBounds(x, n) && v != 0
    requires forall y :: y in cells ==> InBounds(y, n)
    requires !Filled(g, cells) && Filled(Put(g, x, v), cells)
    ensures x in cells
  {
    var y :| y in cells && !(ValidCell(g, y) && At(g, y) != 0);
    assert At(Put(g, x, v), y) != 0;
  }

  /** One step of either solver: x was empty on g and is filled with v to give
      cur; every cage containing x was accepted on cur, and the search below
      cur ended in res with every cage that still had an empty cell on cur
      satisfied. Then every cage that had an empty cell on g is satisfied on res. */
  lemma SolverStep(g: Grid, cur: Grid, res: Grid, n: nat, x: Cell, v: int, cages: seq<Cage>)
    requires IsGrid(g, n) && IsGrid(cur, n) && IsGrid(res, n) && InBounds(x, n)
    requires At(g, x) == 0 && v != 0 && cur == Put(g, x, v)
    requires CagesInBounds(cages, n) && Extends(cur, res, n)
    requires forall k :: 0 <= k < |cages| && x in cages[k].cells ==> Accepts(cur, cages[k])
    requires forall k :: 0 <= k < |cages| && !Filled(cur, cages[k].cells) ==> CageSatisfied(res, cages[k])
    ensures forall k :: 0 <= k < |cages| && !Filled(g, cages[k].cells) ==> CageSatisfied(res, cages[k])
  {
    forall k | 0 <= k < |cages| && !Filled(g, cages[k].cells)
      ensures CageSatisfied(res, cages[k])
    {
      if Filled(cur, cages[k].cells) {
        CompletedByPut(g, n, x, v, cages[k].cells);
        CompletedCageStaysSatisfied(cur, res, n, cages[k]);
      }
    }
  }
}

=== FILE: csp.dfy ===
/** The constraint-propagation solver: solve_kenken_csp with its nested
    create_domains, is_valid_assignment, update_domains,
    find_unassigned_location and solve_csp. The assignment dictionary holds
    exactly the N x N coordinates, inserted in row-major order and never
    extended, so it is modelled as a board and scanned with FirstEmpty. */
module Csp {
  import opened Grids
  import opened Cages

  /** The candidate values of each cell. */
  type Domains = map<Cell, set<int>>

  /** Every coordinate of the N x N board has a domain. */
  ghost predicate HasAllCells(d: Domains, n: nat) {
    forall r, c :: 0 <= r < n && 0 <= c < n ==> Cell(r, c) in d
  }

  /** Every domain holds values in 1..n only. */
  ghost predicate DomainsWithin(d: Domains, n: nat) {
    forall y :: y in d ==> d[y] <= Range(n)
  }

  // ---------------------------------------------------------------------
  // create_domains

  /** target % v == 0 on the (possibly fractional) target: the target is a
      whole number and v divides it. */
  predicate Divides(v: int, target: real)
    requires v != 0
  {
    target == target.Floor as real && target.Floor % v == 0
  }

  /** The domain a cage gives each of its cells: the divisors of the target
      within 1..n for a * cage, all of 1..n otherwise. */
  function CageDomain(cage: Cage, n: nat): (s: set<int>)
    ensures s <= Range(n)
    ensures cage.op != Mul ==> s == Range(n)
    ensures cage.op == Mul ==> forall v :: v in s <==> 1 <= v <= n && Divides(v, cage.target)
  {
    if cage.op == Mul then set v | v in Range(n) && Divides(v, cage.target) else Range(n)
  }

  /** Cage k contains y and no later cage does. */
  ghost predicate LastCageOf(cages: seq<Cage>, y: Cell, k: int) {
    0 <= k < |cages| && y in cages[k].cells && forall j :: k < j < |cages| ==> y !in cages[j].cells
  }

  /** The domain 1..n for every coordinate of the board. */
  function FullDomains(n: nat): (d: Domains)
    ensures forall y :: y in d <==> InBounds(y, n)
    ensures forall y :: y in d ==> d[y] == Range(n)
  {
    map r, c | 0 <= r < n && 0 <= c < n :: Cell(r, c) := Range(n)
  }

  /** Overwrites the domain of every cell of the list with dom. */
  function ApplyCells(d: Domains, cells: seq<Cell>, dom: set<int>): (r: Domains)
    ensures forall y :: y in r <==> y in d || y in cells
    ensures forall y :: y in r ==> r[y] == if y in cells then dom else d[y]
    decreases |cells|
  {
    if |cells| == 0 then d
    else
      assert forall y :: y in cells <==> y == cells[0] || y in cells[1..];
      ApplyCells(d[cells[0] := dom], cells[1..], dom)
  }

  /** The loop over the cages of create_domains, applied in list order. */
  function ApplyCages(d: Domains, cages: seq<Cage>, n: nat): (r: Domains)
    ensures forall y :: y in r <==> y in d || Covered(cages, y)
    ensures forall y, k :: LastCageOf(cages, y, k) ==> y in r && r[y] == CageDomain(cages[k], n)
    ensures forall y :: y in r && !Covered(cages, y) ==> r[y] == d[y]
  {
    if |cages| == 0 then d
    else
      var prefix := cages[..|cages| - 1];
      var last := cages[|cages| - 1];
      var before := ApplyCages(d, prefix, n);
      CoveredSplit(cages);
      LastCageSplit(cages, n);
      ApplyCells(before, last.cells, CageDomain(last, n))
  }

  lemma CoveredSplit(cages: seq<Cage>)
    requires |cages| > 0
    ensures forall y :: Covered(cages, y) <==> Covered(cages[..|cages| - 1], y) || y in cages[|cages| - 1].cells
  {
    var prefix := cages[..|cages| - 1];
    forall y | Covered(cages, y) && y !in cages[|cages| - 1].cells
      ensures Covered(prefix, y)
    {
      var k :| 0 <= k < |cages| && y in cages[k].cells;
      assert prefix[k] == cages[k];
    }
    forall y | Covered(prefix, y)
      ensures Covered(cages, y)
    {
      var k :| 0 <= k < |prefix| && y in prefix[k].cells;
      assert cages[k] == prefix[k];
    }
  }

  lemma LastCageSplit(cages: seq<Cage>, n: nat)
    requires |cages| > 0
    ensures forall y, k :: LastCageOf(cages, y, k) && k < |cages| - 1 ==>
      y !in cages[|cages| - 1].cells && LastCageOf(cages[..|cages| - 1], y, k)
    ensures forall y, k :: LastCageOf(cages, y, k) && y in cages[|cages| - 1].cells ==> k == |cages| - 1
  {
  }

  /** create_domains: every coordinate starts with 1..n; then each cage in
      turn overwrites the domains of its cells. So the last cage containing
      a cell decides its domain, a cell in no cage keeps 1..n, and every
      domain lies within 1..n. */
  function CreateDomains(n: nat, cages: seq<Cage>): (d: Domains)
    ensures forall y :: y in d <==> InBounds(y, n) || Covered(cages, y)
    ensures DomainsWithin(d, n)
    ensures forall y, k :: LastCageOf(cages, y, k) ==> y in d && d[y] == CageDomain(cages[k], n)
    ensures forall y :: InBounds(y, n) && !Covered(cages, y) ==> d[y] == Range(n)
  {
    var d := ApplyCages(FullDomains(n), cages, n);
    forall y | y in d
      ensures d[y] <= Range(n)
    {
      if Covered(cages, y) {
        var k := LastCage(cages, y);
      }
    }
    d
  }

  /** A cell in some cage has a last cage containing it. */
  lemma {:induction false} LastCage(cages: seq<Cage>, y: Cell) returns (k: int)
    requires Covered(cages, y)
    ensures LastCageOf(cages, y, k)
  {
    var last := |cages| - 1;
    if y in cages[last].cells {
      k := last;
    } else {
      CoveredSplit(cages);
      var prefix := cages[..last];
      k := LastCage(prefix, y);
      assert prefix[k] == cages[k];
    }
  }

  /** A product of values has each of them as a factor. */
  lemma {:induction false} ProductFactor(s: seq<int>, i: nat) returns (q: int)
    requires i < |s|
    ensures Product(s) == s[i] * q
  {
    if i == 0 {
      q := Product(s[1..]);
    } else {
      var q' := ProductFactor(s[1..], i - 1);
      q := s[0] * q';
      assert Product(s) == s[0] * (s[i] * q');
      assert s[0] * (s[i] * q') == s[i] * (s[0] * q');
    }
  }

  lemma MultipleMod(v: int, q: int)
    requires v != 0
    ensures (v * q) % v == 0
  {
    var a := v * q;
    var m := q - a / v;
    assert a == v * (a / v) + a % v;
    assert v * m == a % v;
  }

  /** The domains create_domains builds never exclude a solution: on a
      Latin square that satisfies every cage, each cell's value lies in its
      domain (a value of a satisfied * cage divides the cage's target). */
  lemma DomainsKeepSolutions(h: Grid, n: nat, cages: seq<Cage>)
    requires IsGrid(h, n) && Latin(h, n) && CagesInBounds(cages, n)
    requires forall k :: 0 <= k < |cages| ==> CageSatisfied(h, cages[k])
    ensures forall r, c :: 0 <= r < n && 0 <= c < n ==> h[r][c] in CreateDomains(n, cages)[Cell(r, c)]
  {
    forall r, c | 0 <= r < n && 0 <= c < n
      ensures h[r][c] in CreateDomains(n, cages)[Cell(r, c)]
    {
      CellInDomain(h, n, cages, Cell(r, c));
    }
  }

  lemma CellInDomain(h: Grid, n: nat, cages: seq<Cage>, y: Cell)
    requires IsGrid(h, n) && InBounds(y, n) && 1 <= At(h, y) <= n
    requires forall k :: 0 <= k < |cages| ==> CageSatisfied(h, cages[k])
    ensures y in CreateDomains(n, cages) && At(h, y) in CreateDomains(n, cages)[y]
  {
    var d := CreateDomains(n, cages);
    if Covered(cages, y) {
      var k := LastCage(cages, y);
      assert d[y] == CageDomain(cages[k], n);
      if cages[k].op == Mul {
        MulCageValueDivides(h, n, cages[k], y);
      }
    }
  }

  /** In a satisfied * cage every value divides the target. */
  lemma MulCageValueDivides(h: Grid, n: nat, cage: Cage, y: Cell)
    requires IsGrid(h, n) && cage.op == Mul && CageSatisfied(h, cage) && y in cage.cells
    ensures At(h, y) != 0 && Divides(At(h, y), cage.target)
  {
    var vs := CellValues(h, cage.cells);
    assert FindValues(h, cage.cells) == vs;
    var i :| 0 <= i < |cage.cells| && cage.cells[i] == y;
    var q := ProductFactor(vs, i);
    MultipleMod(vs[i], q);
  }

  // ---------------------------------------------------------------------
  // is_valid_assignment

  /** The elif chain of is_valid_assignment for one cage: true when the
      values currently placed make it return False. */
  function CspCageFails(op: Op, values: seq<int>, target: real, cellCount: nat): (fails: bool)
    requires cellCount >= 1 && 0 !in values
    ensures fails <==> !Validate(op, values, target, cellCount)
  {
    match op
    case Add =>
      if |values| == cellCount && Sum(values) as real != target then true
      else Sum(values) as real > target
    case Mul =>
      var product := Product(values);
      if |values| == cellCount && product as real != target then true
      else product as real > target
    case Sub =>
      if |values| == cellCount then
        if cellCount == 1 then values[0] as real != target
        else Abs(values[0] - values[1]) as real != target
      else false
    case Div =>
      if |values| == cellCount then
        if cellCount == 1 then values[0] as real != target
        else (Max(values) as real) / (Min(values) as real) != target
      else false
  }

  /** The cage loop of is_valid_assignment from cage i on: every cage that
      contains x accepts the values it holds on h. */
  function CageChecksFrom(h: Grid, x: Cell, cages: seq<Cage>, i: nat): (ok: bool)
    requires IsGrid(h, |h|) && CagesInBounds(cages, |h|) && i <= |cages|
    ensures ok <==> forall k :: i <= k < |cages| && x in cages[k].cells ==> Accepts(h, cages[k])
    decreases |cages| - i
  {
    if i == |cages| then true
    else if x in cages[i].cells then
      var cage := cages[i];
      assert AllValid(h, cage.cells) by {
        forall y | y in cage.cells
          ensures ValidCell(h, y)
        {
          assert InBounds(y, |h|);
        }
      }
      if CspCageFails(cage.op, FindValues(h, cage.cells), cage.target, |cage.cells|) then false
      else CageChecksFrom(h, x, cages, i + 1)
    else CageChecksFrom(h, x, cages, i + 1)
  }

  /** is_valid_assignment: val must be absent from x's row and column; then
      it is written into x, EVERY cage containing x is checked, and x is set
      back to 0. The verdict is true exactly when val is absent from the lines
      and all those cages accept; the board comes back unchanged whenever x
      was empty. A cell in no cage is checked against its lines only. */
  function IsValidAssignment(a: Grid, x: Cell, val: int, cages: seq<Cage>): (p: Probe)
    requires IsGrid(a, |a|) && InBounds(x, |a|) && CagesInBounds(cages, |a|)
    ensures p.grid == a || p.grid == Put(a, x, 0)
    ensures At(a, x) == 0 ==> p.grid == a
    ensures p.safe <==>
      && (forall i :: 0 <= i < |a| ==> a[x.r][i] != val && a[i][x.c] != val)
      && (forall k :: 0 <= k < |cages| && x in cages[k].cells ==> Accepts(Put(a, x, val), cages[k]))
  {
    if !IsValid(a, x, val, |a|) then Probe(false, a)
    else
      var verdict := CageChecksFrom(Put(a, x, val), x, cages, 0);
      PutPut(a, x, val, 0);
      PutSame(a, x);
      Probe(verdict, Put(Put(a, x, val), x, 0))
  }

  // ---------------------------------------------------------------------
  // update_domains

  /** y lies in row x.r or column x.c of the board, at index k or beyond. */
  predicate OnLinesFrom(y: Cell, x: Cell, n: nat, k: nat) {
    (y.r == x.r && k <= y.c < n) || (y.c == x.c && k <= y.r < n)
  }

  function UpdateFrom(d: Domains, x: Cell, val: int, n: nat, k: nat): (r: Domains)
    requires HasAllCells(d, n) && InBounds(x, n) && k <= n
    ensures forall y :: y in r <==> y in d
    ensures forall y :: y in r ==> r[y] == if OnLinesFrom(y, x, n, k) then d[y] - {val} else d[y]
    decreases n - k
  {
    if k == n then d
    else
      var a := Cell(x.r, k);
      var b := Cell(k, x.c);
      assert a in d && b in d;
      var d1 := d[a := d[a] - {val}];
      var d2 := d1[b := d1[b] - {val}];
      UpdateFrom(d2, x, val, n, k + 1)
  }

  /** update_domains: a copy of the domains with val discarded from every
      cell of x's row and x's column (x itself included); every other
      domain, and the set of cells, is unchanged. */
  function UpdateDomains(d: Domains, x: Cell, val: int, n: nat): (r: Domains)
    requires HasAllCells(d, n) && InBounds(x, n)
    ensures forall y :: y in r <==> y in d
    ensures forall y :: y in r ==> r[y] == if OnLinesFrom(y, x, n, 0) then d[y] - {val} else d[y]
  {
    UpdateFrom(d, x, val, n, 0)
  }

  /** Propagation only narrows: every domain after update_domains is a subset
      of the one before, and val is gone from every cell sharing a line with x. */
  lemma UpdateNarrows(d: Domains, x: Cell, val: int, n: nat)
    requires HasAllCells(d, n) && InBounds(x, n)
    ensures HasAllCells(UpdateDomains(d, x, val, n), n)
    ensures forall y :: y in d ==> UpdateDomains(d, x, val, n)[y] <= d[y]
    ensures forall i :: 0 <= i < n ==>
      val !in UpdateDomains(d, x, val, n)[Cell(x.r, i)] && val !in UpdateDomains(d, x, val, n)[Cell(i, x.c)]
    ensures DomainsWithin(d, n) ==> DomainsWithin(UpdateDomains(d, x, val, n), n)
  {
  }

  // ---------------------------------------------------------------------
  // solve_csp

  /** A set with a positive size has an element. */
  lemma HasElement(s: set<int>)
    requires |s| > 0
    ensures exists v :: v in s
  {
    if forall v :: v !in s {
      assert false;
    }
  }

  /** The values placed below a narrowed domain map, together with the value
      placed at x from x's own domain, come from the original domains. */
  lemma DomainStep(a: Grid, after: Grid, n: nat, x: Cell, val: int, d: Domains, narrowed: Domains)
    requires IsGrid(a, n) && IsGrid(after, n) && InBounds(x, n) && At(a, x) == 0
    requires HasAllCells(d, n) && HasAllCells(narrowed, n) && val in d[x] && after[x.r][x.c] == val
    requires forall y :: y in d ==> y in narrowed && narrowed[y] <= d[y]
    requires forall r, c :: 0 <= r < n && 0 <= c < n && Put(a, x, val)[r][c] == 0 ==> after[r][c] in narrowed[Cell(r, c)]
    ensures forall r, c :: 0 <= r < n && 0 <= c < n && a[r][c] == 0 ==> after[r][c] in d[Cell(r, c)]
  {
    forall r, c | 0 <= r < n && 0 <= c < n && a[r][c] == 0
      ensures after[r][c] in d[Cell(r, c)]
    {
      if r != x.r || c != x.c {
        assert Put(a, x, val)[r][c] == 0;
      }
    }
  }

  /** What a successful solve_csp call from assignment a with domains d
      leaves behind: no cell is empty, every value of a is kept, each newly
      placed value comes from its cell's domain, a repeat-free start with
      domains in 1..n gives a Latin square, and every cage that had an empty
      cell is satisfied. */
  ghost predicate CspSolvedFrom(a: Grid, res: Grid, d: Domains, cages: seq<Cage>)
    requires IsGrid(a, |a|) && IsGrid(res, |a|) && HasAllCells(d, |a|)
  {
    && NoEmpty(res, |a|) && Extends(a, res, |a|)
    && (forall r, c :: 0 <= r < |a| && 0 <= c < |a| && a[r][c] == 0 ==> res[r][c] in d[Cell(r, c)])
    && (PartialLatin(a, |a|) && DomainsWithin(d, |a|) ==> Latin(res, |a|))
    && (forall k :: 0 <= k < |cages| && !Filled(a, cages[k].cells) ==> CageSatisfied(res, cages[k]))
  }

  /** solve_csp: at the first empty cell, try the values of its domain in
      any order (a Python set's iteration order is not part of the
      algorithm) until one of them leads to a solution. On success no cell is
      empty, placed values are kept, each newly placed value comes from the
      cell's domain, the board is a Latin square when it started as a
      partial one with domains in 1..n, and every cage that still had an
      empty cell is satisfied. On failure the assignment is returned exactly
      as it came in. */
  method SolveCsp(a: Grid, d: Domains, cages: seq<Cage>) returns (ok: bool, res: Grid)
    requires IsGrid(a, |a|) && CagesInBounds(cages, |a|) && HasAllCells(d, |a|)
    ensures IsGrid(res, |a|)
    ensures !ok ==> res == a
    ensures ok ==> CspSolvedFrom(a, res, d, cages)
    decreases Zeros(a), 1
  {
    var n := |a|;
    var first := FirstEmpty(a, n);
    if first.None? {
      forall k, y | 0 <= k < |cages| && y in cages[k].cells
        ensures ValidCell(a, y) && At(a, y) != 0
      {
        assert InBounds(y, n);
      }
      return true, a;
    }
    var x := first.value;
    var remaining := d[x];
    while |remaining| > 0
      invariant remaining <= d[x]
      decreases |remaining|
    {
      HasElement(remaining);
      var val :| val in remaining;
      remaining := remaining - {val};
      ok, res := TryValue(a, d, cages, x, val);
      if ok {
        return;
      }
    }
    return false, a;
  }

  /** One pass of the loop of solve_csp: if is_valid_assignment accepts val
      at the empty cell x, place it, narrow the domains with update_domains
      and solve the rest, putting 0 back when that fails. */
  method TryValue(a: Grid, d: Domains, cages: seq<Cage>, x: Cell, val: int) returns (ok: bool, res: Grid)
    requires IsGrid(a, |a|) && CagesInBounds(cages, |a|) && HasAllCells(d, |a|)
    requires InBounds(x, |a|) && At(a, x) == 0 && val in d[x]
    ensures IsGrid(res, |a|)
    ensures !ok ==> res == a
    ensures ok ==> CspSolvedFrom(a, res, d, cages)
    decreases Zeros(a), 0
  {
    var n := |a|;
    var probe := IsValidAssignment(a, x, val, cages);
    if !probe.safe {
      return false, a;
    }
    assert val != 0 by {
      assert a[x.r][x.c] == 0;
    }
    var cur := Put(a, x, val);
    PutFillsOneCell(a, x, val);
    var narrowed := UpdateDomains(d, x, val, n);
    UpdateNarrows(d, x, val, n);
    var sub, after := SolveCsp(cur, narrowed, cages);
    if !sub {
      PutPut(a, x, val, 0);
      PutSame(a, x);
      return false, Put(after, x, 0);
    }
    PutExtends(a, n, x, val);
    if PartialLatin(a, n) && DomainsWithin(d, n) {
      PlacementKeepsPartialLatin(a, n, x, val);
    }
    SolverStep(a, cur, after, n, x, val, cages);
    DomainStep(a, after, n, x, val, d, narrowed);
    return true, after;
  }

  /** solve_kenken_csp: builds the domains from the cages, starts from an
      all-empty assignment of the board's size (the board's own values are
      not read) and runs solve_csp. A solution is a Latin square that
      satisfies every non-empty cage, with each value in its cell's domain. */
  method SolveKenkenCsp(grid: Grid, cages: seq<Cage>) returns (r: Option<Grid>)
    requires IsGrid(grid, |grid|) && CagesInBounds(cages, |grid|)
    ensures r.Some? ==> IsGrid(r.value, |grid|) && Latin(r.value, |grid|)
    ensures r.Some? ==> forall k :: 0 <= k < |cages| && |cages[k].cells| >= 1 ==> CageSatisfied(r.value, cages[k])
    ensures r.Some? ==> forall i, j :: 0 <= i < |grid| && 0 <= j < |grid| ==>
      r.value[i][j] in CreateDomains(|grid|, cages)[Cell(i, j)]
  {
    var n := |grid|;
    var d := CreateDomains(n, cages);
    var a := EmptyGrid(n);
    EmptyGridIsPartialLatin(n);
    BlankLeavesCagesOpen(n, cages);
    var ok, res := SolveCsp(a, d, cages);
    if !ok {
      return None;
    }
    return Some(res);
  }

  /** On the blank board every non-empty on-board cage has an empty cell. */
  lemma BlankLeavesCagesOpen(n: nat, cages: seq<Cage>)
    requires CagesInBounds(cages, n)
    ensures forall k :: 0 <= k < |cages| && |cages[k].cells| >= 1 ==> !Filled(EmptyGrid(n), cages[k].cells)
  {
    forall k | 0 <= k < |cages| && |cages[k].cells| >= 1
      ensures !Filled(EmptyGrid(n), cages[k].cells)
    {
      var y := cages[k].cells[0];
      assert InBounds(y, n);
    }
  }
}

=== FILE: generator.dfy ===
/** The Latin-square generator: fill_KenKen and generate_KenKen.
    Each random.choice(allowed_nums) is an arbitrary value in 1..n chosen by
    `:|`, so every property below holds whatever values are drawn. */
module Generator {
  import opened Grids

  /** fill_KenKen: randomised backtracking over the empty cells in row-major
      order. At the first empty cell it draws n values (with replacement);
      each one that is absent from the cell's row and column is placed and
      the rest of the board is filled recursively; a failed branch puts 0
      back. On success the board is full and keeps every value it had; on
      failure it is returned exactly as it came in. */
  method Fill(g: Grid, n: nat) returns (ok: bool, res: Grid)
    requires IsGrid(g, n)
    ensures IsGrid(res, n)
    ensures !ok ==> res == g
    ensures ok ==> NoEmpty(res, n) && Extends(g, res, n)
    ensures ok && PartialLatin(g, n) ==> Latin(res, n)
    ensures NoEmpty(g, n) ==> ok && res == g
    ensures n == 1 ==> ok
    decreases Zeros(g)
  {
    var first := FirstEmpty(g, n);
    if first.None? {
      return true, g;
    }
    var x := first.value;
    var cur := g;
    for t := 0 to n
      invariant cur == g
      invariant n == 1 ==> t == 0
    {
      var number :| 1 <= number <= n;
      if IsValid(cur, x, number, n) {
        cur := Put(cur, x, number);
        PutFillsOneCell(g, x, number);
        var sub, after := Fill(cur, n);
        if sub {
          PutExtends(g, n, x, number);
          if PartialLatin(g, n) {
            PlacementKeepsPartialLatin(g, n, x, number);
          }
          return true, after;
        }
        cur := Put(after, x, 0);
        PutPut(g, x, number, 0);
        PutSame(g, x);
      }
    }
    return false, cur;
  }

  /** generate_KenKen: fill an all-empty N x N board. When it succeeds the
      board is a Latin square (every row and column a permutation of 1..n);
      a one-cell board is always filled, with 1. */
  method GenerateKenKen(n: nat) returns (r: Option<Grid>)
    ensures r.Some? ==> IsGrid(r.value, n) && Latin(r.value, n)
    ensures n == 1 ==> r == Some([[1]])
  {
    var g := EmptyGrid(n);
    EmptyGridIsPartialLatin(n);
    var ok, res := Fill(g, n);
    if ok {
      if n == 1 {
        assert res[0][0] == 1;
        assert res[0] == [1];
        assert res == [res[0]];
      }
      return Some(res);
    }
    return None;
  }
}

=== FILE: grid.dfy ===
/** The board shared by the generator and both solvers: an N x N list of
    rows in which 0 marks an empty cell, together with the row-major scan for
    the first empty cell and the row/column uniqueness test. */
module Grids {

  datatype Option<T> = None | Some(value: T)

  /** A (row, column) coordinate. Coordinates are unbounded so that a
      neighbour one step off the board can be named before it is filtered. */
  datatype Cell = Cell(r: int, c: int)

  type Grid = seq<seq<int>>

  /** The result of a probe that writes a cell and puts 0 back: the verdict and
      the board as the probe leaves it. */
  datatype Probe = Probe(safe: bool, grid: Grid)

  predicate IsGrid(g: Grid, n: nat) {
    |g| == n && forall r :: 0 <= r < n ==> |g[r]| == n
  }

  predicate InBounds(x: Cell, n: nat) {
    0 <= x.r < n && 0 <= x.c < n
  }

  /** x indexes an existing entry of g (the board need not be square). */
  predicate ValidCell(g: Grid, x: Cell) {
    0 <= x.r < |g| && 0 <= x.c < |g[x.r]|
  }

  predicate AllValid(g: Grid, cells: seq<Cell>) {
    forall x :: x in cells ==> ValidCell(g, x)
  }

  function At(g: Grid, x: Cell): int
    requires ValidCell(g, x)
  {
    g[x.r][x.c]
  }

  /** g with the cell x overwritten by v. */
  function Put(g: Grid, x: Cell, v: int): (h: Grid)
    requires ValidCell(g, x)
    ensures |h| == |g| && forall r :: 0 <= r < |g| ==> |h[r]| == |g[r]|
    ensures h[x.r][x.c] == v
    ensures forall r, c :: 0 <= r < |g| && 0 <= c < |g[r]| && (r != x.r || c != x.c) ==> h[r][c] == g[r][c]
  {
    g[x.r := g[x.r][x.c := v]]
  }

  /** The all-empty N x N board. */
  function EmptyGrid(n: nat): (g: Grid)
    ensures IsGrid(g, n)
    ensures forall r, c :: 0 <= r < n && 0 <= c < n ==> g[r][c] == 0
  {
    seq(n, _ => seq(n, _ => 0))
  }

  // ---------------------------------------------------------------------
  // Counting empty cells: the termination measure of every search.

  function RowZeros(row: seq<int>): nat {
    if |row| == 0 then 0 else (if row[0] == 0 then 1 else 0) + RowZeros(row[1..])
  }

  function Zeros(g: Grid): nat {
    if |g| == 0 then 0 else RowZeros(g[0]) + Zeros(g[1..])
  }

  lemma {:induction false} RowZerosUpdate(row: seq<int>, c: nat, v: int)
    requires c < |row|
    ensures RowZeros(row[c := v]) + (if row[c] == 0 then 1 else 0)
            == RowZeros(row) + (if v == 0 then 1 else 0)
  {
    if c == 0 {
      assert row[c := v][1..] == row[1..];
    } else {
      assert row[c := v][1..] == row[1..][c - 1 := v];
      RowZerosUpdate(row[1..], c - 1, v);
    }
  }

  lemma {:induction false} ZerosUpdate(g: Grid, r: nat, row: seq<int>)
    requires r < |g|
    ensures Zeros(g[r := row]) + RowZeros(g[r]) == Zeros(g) + RowZeros(row)
  {
    if r == 0 {
      assert g[r := row][1..] == g[1..];
    } else {
      assert g[r := row][1..] == g[1..][r - 1 := row];
      ZerosUpdate(g[1..], r - 1, row);
    }
  }

  /** Filling an empty cell with a non-zero value removes exactly one empty cell. */
  lemma PutFillsOneCell(g: Grid, x: Cell, v: int)
    requires ValidCell(g, x) && At(g, x) == 0 && v != 0
    ensures Zeros(Put(g, x, v)) + 1 == Zeros(g)
  {
    RowZerosUpdate(g[x.r], x.c, v);
    ZerosUpdate(g, x.r, g[x.r][x.c := v]);
  }

  /** Writing back the value a cell already holds leaves the board as it was. */
  lemma PutSame(g: Grid, x: Cell)
    requires ValidCell(g, x)
    ensures Put(g, x, At(g, x)) == g
  {
    assert g[x.r][x.c := At(g, x)] == g[x.r];
  }

  /** Writing a cell twice keeps only the second write. */
  lemma PutPut(g: Grid, x: Cell, v: int, w: int)
    requires ValidCell(g, x)
    ensures Put(Put(g, x, v), x, w) == Put(g, x, w)
  {
    assert Put(g, x, v)[x.r][x.c := w] == g[x.r][x.c := w];
  }

  // ---------------------------------------------------------------------
  // Scans over the board.

  ghost predicate NoEmpty(g: Grid, n: nat)
    requires IsGrid(g, n)
  {
    forall r, c :: 0 <= r < n && 0 <= c < n ==> g[r][c] != 0
  }

  /** (r, c) comes at or after (r0, c0) in row-major order. */
  predicate AtOrAfter(r: int, c: int, r0: int, c0: int) {
    r > r0 || (r == r0 && c >= c0)
  }

  /** find_unassigned_location, and the scan that opens fill_KenKen: the first
      empty cell in row-major order, or None when the board is full. */
  function FirstEmpty(g: Grid, n: nat): (o: Option<Cell>)
    requires IsGrid(g, n)
    ensures o.Some? ==> InBounds(o.value, n) && At(g, o.value) == 0
    ensures o.Some? ==> forall r, c :: 0 <= r < n && 0 <= c < n && !AtOrAfter(r, c, o.value.r, o.value.c) ==> g[r][c] != 0
    ensures o.None? <==> NoEmpty(g, n)
  {
    FirstEmptyFrom(g, n, 0, 0)
  }

  function FirstEmptyFrom(g: Grid, n: nat, r0: nat, c0: nat): (o: Option<Cell>)
    requires IsGrid(g, n) && r0 <= n && c0 <= n
    ensures o.Some? ==> InBounds(o.value, n) && At(g, o.value) == 0 && AtOrAfter(o.value.r, o.value.c, r0, c0)
    ensures o.Some? ==> forall r, c :: 0 <= r < n && 0 <= c < n && AtOrAfter(r, c, r0, c0) && !AtOrAfter(r, c, o.value.r, o.value.c) ==> g[r][c] != 0
    ensures o.None? <==> forall r, c :: 0 <= r < n && 0 <= c < n && AtOrAfter(r, c, r0, c0) ==> g[r][c] != 0
    decreases n - r0, n - c0
  {
    if r0 == n then None
    else if c0 == n then FirstEmptyFrom(g, n, r0 + 1, 0)
    else if g[r0][c0] == 0 then Some(Cell(r0, c0))
    else FirstEmptyFrom(g, n, r0, c0 + 1)
  }

  /** is_valid (and the row/column loops of is_safe_kenken and
      is_valid_assignment): v occurs neither in x's row nor in x's column. */
  function IsValid(g: Grid, x: Cell, v: int, n: nat): (ok: bool)
    requires IsGrid(g, n) && InBounds(x, n)
    ensures ok <==> forall i :: 0 <= i < n ==> g[x.r][i] != v && g[i][x.c] != v
  {
    LinesFreeFrom(g, x, v, n, 0)
  }

  function LinesFreeFrom(g: Grid, x: Cell, v: int, n: nat, k: nat): (ok: bool)
    requires IsGrid(g, n) && InBounds(x, n) && k <= n
    ensures ok <==> forall i :: k <= i < n ==> g[x.r][i] != v && g[i][x.c] != v
    decreases n - k
  {
    if k == n then true
    else if g[x.r][k] == v || g[k][x.c] == v then false
    else LinesFreeFrom(g, x, v, n, k + 1)
  }

  // ---------------------------------------------------------------------
  // Latin squares.

  /** Every cell is empty or holds a value in 1..n, and no non-empty value
      repeats within a row or within a column. */
  ghost predicate PartialLatin(g: Grid, n: nat)
    requires IsGrid(g, n)
  {
    && (forall r, c :: 0 <= r < n && 0 <= c < n ==> 0 <= g[r][c] <= n)
    && (forall r, c, c' :: 0 <= r < n && 0 <= c < c' < n && g[r][c] != 0 ==> g[r][c] != g[r][c'])
    && (forall r, r', c :: 0 <= r < r' < n && 0 <= c < n && g[r][c] != 0 ==> g[r][c] != g[r'][c])
  }

  ghost predicate Latin(g: Grid, n: nat)
    requires IsGrid(g, n)
  {
    PartialLatin(g, n) && NoEmpty(g, n)
  }

  /** h keeps every value that g had already placed. */
  ghost predicate Extends(g: Grid, h: Grid, n: nat)
    requires IsGrid(g, n) && IsGrid(h, n)
  {
    forall r, c :: 0 <= r < n && 0 <= c < n && g[r][c] != 0 ==> h[r][c] == g[r][c]
  }

  lemma EmptyGridIsPartialLatin(n: nat)
    ensures PartialLatin(EmptyGrid(n), n)
  {
  }

  /** Placing v in an empty cell, when v is in 1..n and absent from the cell's
      row and column, keeps the board a partial Latin square. */
  lemma PlacementKeepsPartialLatin(g: Grid, n: nat, x: Cell, v: int)
    requires IsGrid(g, n) && InBounds(x, n) && PartialLatin(g, n)
    requires At(g, x) == 0 && 1 <= v <= n
    requires forall i :: 0 <= i < n ==> g[x.r][i] != v && g[i][x.c] != v
    ensures PartialLatin(Put(g, x, v), n)
  {
  }

  /** Filling an empty cell extends the board. */
  lemma PutExtends(g: Grid, n: nat, x: Cell, v: int)
    requires IsGrid(g, n) && InBounds(x, n) && At(g, x) == 0
    ensures IsGrid(Put(g, x, v), n) && Extends(g, Put(g, x, v), n)
  {
  }

  /** The values 1..n. */
  function Range(n: nat): (s: set<int>)
    ensures forall v :: v in s <==> 1 <= v <= n
    ensures |s| == n
  {
    if n == 0 then {} else Range(n - 1) + {n}
  }

  function Image(s: seq<int>): set<int> {
    set i | 0 <= i < |s| :: s[i]
  }

  lemma {:induction false} ImageSize(s: seq<int>)
    requires forall i, j :: 0 <= i < j < |s| ==> s[i] != s[j]
    ensures |Image(s)| == |s|
  {
    if |s| > 0 {
      var p := s[..|s| - 1];
      assert Image(s) == Image(p) + {s[|s| - 1]};
      assert s[|s| - 1] !in Image(p);
      ImageSize(p);
    } else {
      assert Image(s) == {};
    }
  }

  /** n distinct values drawn from 1..n are exactly 1..n. */
  lemma DistinctFullRange(s: seq<int>, n: nat)
    requires |s| == n
    requires forall i :: 0 <= i < n ==> 1 <= s[i] <= n
    requires forall i, j :: 0 <= i < j < n ==> s[i] != s[j]
    ensures Image(s) == Range(n)
  {
    var a, b := Image(s), Range(n);
    ImageSize(s);
    assert a <= b;
    assert a * b == a;
    assert a + b == b;
    assert a - b == {};
    assert |b - a| == 0;
  }

  function Column(g: Grid, c: nat, n: nat): (col: seq<int>)
    requires IsGrid(g, n) && c < n
    ensures |col| == n && forall r :: 0 <= r < n ==> col[r] == g[r][c]
  {
    seq(n, r requires 0 <= r < n => g[r][c])
  }

  /** Every row and every column of a Latin square is a permutation of 1..n. */
  lemma LatinRowsAndColumnsArePermutations(g: Grid, n: nat)
    requires IsGrid(g, n) && Latin(g, n)
    ensures forall r :: 0 <= r < n ==> Image(g[r]) == Range(n)
    ensures forall c :: 0 <= c < n ==> Image(Column(g, c, n)) == Range(n)
  {
    forall r | 0 <= r < n
      ensures Image(g[r]) == Range(n)
    {
      DistinctFullRange(g[r], n);
    }
    forall c | 0 <= c < n
      ensures Image(Column(g, c, n)) == Range(n)
    {
      DistinctFullRange(Column(g, c, n), n);
    }
  }
}

=== FILE: partition.dfy ===
/** The cage partitioner: generate_random_cages. Every random.randint and
    random.choice is an arbitrary choice within its range (`:|`), so the
    partition properties hold for every outcome of the random walk. */
module Partition {
  import opened Grids
  import opened Cages

  /** a and b share a side. */
  predicate Adjacent(a: Cell, b: Cell) {
    || (a.r == b.r && (a.c - b.c == 1 || b.c - a.c == 1))
    || (a.c == b.c && (a.r - b.r == 1 || b.r - a.r == 1))
  }

  /** Each cell after the first shares a side with the one added just before it. */
  ghost predicate Path(cells: seq<Cell>) {
    forall k :: 1 <= k < |cells| ==> Adjacent(cells[k - 1], cells[k])
  }

  ghost predicate Distinct(cells: seq<Cell>) {
    forall i, j :: 0 <= i < j < |cells| ==> cells[i] != cells[j]
  }

  function Keep(y: Cell, n: nat, visited: set<Cell>): seq<Cell> {
    if InBounds(y, n) && y !in visited then [y] else []
  }

  /** The neighbour list of the random walk: the on-board, unvisited cells one
      step down, right, up and left of x, in that order. */
  function Neighbours(x: Cell, n: nat, visited: set<Cell>): (ns: seq<Cell>)
    ensures forall y :: y in ns <==> Adjacent(x, y) && InBounds(y, n) && y !in visited
  {
    Keep(Cell(x.r + 1, x.c), n, visited) + Keep(Cell(x.r, x.c + 1), n, visited)
    + Keep(Cell(x.r - 1, x.c), n, visited) + Keep(Cell(x.r, x.c - 1), n, visited)
  }

  /** What every generated cage satisfies on the board g it was cut from: 1 to
      n distinct on-board cells forming a walk of side-adjacent steps, at most
      two cells when the operation is - or /, and the target that
      calculate_target computes from g. */
  ghost predicate WellFormedCage(cage: Cage, g: Grid, n: nat)
    requires IsGrid(g, n)
  {
    && 1 <= |cage.cells| <= n
    && (forall x :: x in cage.cells ==> InBounds(x, n))
    && Distinct(cage.cells)
    && Path(cage.cells)
    && ((cage.op == Sub || cage.op == Div) ==> |cage.cells| <= 2)
    && CalculateTarget(g, cage.cells, cage.op) == Ok(cage.target)
  }

  /** The cages cover every cell of the N x N board exactly once and no cell off it. */
  ghost predicate IsPartition(cages: seq<Cage>, n: nat) {
    && CagesInBounds(cages, n)
    && (forall r, c :: 0 <= r < n && 0 <= c < n ==> Covered(cages, Cell(r, c)))
    && CagesDisjoint(cages)
    && (forall k :: 0 <= k < |cages| ==> Distinct(cages[k].cells))
  }

  /** The loop state of the partitioner: visited holds exactly the cells of
      the cages built so far, all on the board, and those cages are pairwise
      disjoint, well formed and satisfied by g. */
  ghost predicate Built(cages: seq<Cage>, visited: set<Cell>, g: Grid, n: nat)
    requires IsGrid(g, n)
  {
    && (forall x :: x in visited ==> InBounds(x, n))
    && (forall k, x :: 0 <= k < |cages| && x in cages[k].cells ==> x in visited)
    && (forall x :: x in visited ==> Covered(cages, x))
    && CagesDisjoint(cages)
    && (forall k :: 0 <= k < |cages| ==> WellFormedCage(cages[k], g, n))
    && (forall k :: 0 <= k < |cages| ==> CageSatisfied(g, cages[k]))
  }

  /** Every cell before (i, j) in row-major order has been visited. */
  ghost predicate ScannedBefore(visited: set<Cell>, n: nat, i: int, j: int) {
    forall r, c :: 0 <= r < n && 0 <= c < n && !AtOrAfter(r, c, i, j) ==> Cell(r, c) in visited
  }

  lemma AddCage(cages: seq<Cage>, before: set<Cell>, visited: set<Cell>, cage: Cage, g: Grid, n: nat)
    requires IsGrid(g, n) && Built(cages, before, g, n)
    requires WellFormedCage(cage, g, n) && CageSatisfied(g, cage)
    requires forall x :: x in cage.cells ==> x !in before
    requires forall x :: x in visited <==> x in before || x in cage.cells
    ensures Built(cages + [cage], visited, g, n)
  {
    var all := cages + [cage];
    assert all[|cages|] == cage;
    forall x | x in visited
      ensures Covered(all, x)
    {
      if x in before {
        var k :| 0 <= k < |cages| && x in cages[k].cells;
        assert all[k] == cages[k];
      }
    }
    DisjointAppend(cages, before, cage);
    forall k | 0 <= k < |all|
      ensures WellFormedCage(all[k], g, n) && CageSatisfied(g, all[k])
    {
      if k < |cages| {
        assert all[k] == cages[k];
      }
    }
    forall k, x | 0 <= k < |all| && x in all[k].cells
      ensures x in visited
    {
      if k < |cages| {
        assert all[k] == cages[k];
      }
    }
  }

  /** A cage whose cells were all unvisited keeps the cages pairwise disjoint. */
  lemma DisjointAppend(cages: seq<Cage>, before: set<Cell>, cage: Cage)
    requires CagesDisjoint(cages)
    requires forall k, x :: 0 <= k < |cages| && x in cages[k].cells ==> x in before
    requires forall x :: x in cage.cells ==> x !in before
    ensures CagesDisjoint(cages + [cage])
  {
    var all := cages + [cage];
    assert forall k :: 0 <= k < |cages| ==> all[k] == cages[k];
    assert all[|cages|] == cage;
  }

  /** The random walk that grows one cage from start (the while loop of
      generate_random_cages): while the cage is smaller than cageSize, step to
      an arbitrary unvisited on-board neighbour of the cell added last, or stop
      when there is none. The result is a side-adjacent walk of 1..cageSize
      distinct on-board cells beginning at start, none visited before, and
      exactly those cells are added to visited. */
  method GrowCage(start: Cell, cageSize: nat, n: nat, visited0: set<Cell>) returns (cells: seq<Cell>, visited: set<Cell>)
    requires InBounds(start, n) && start !in visited0 && 1 <= cageSize
    ensures 1 <= |cells| <= cageSize && cells[0] == start
    ensures forall x :: x in cells ==> InBounds(x, n) && x !in visited0
    ensures Distinct(cells) && Path(cells)
    ensures forall x :: x in visited <==> x in visited0 || x in cells
    ensures |cells| < cageSize ==> |Neighbours(cells[|cells| - 1], n, visited)| == 0
  {
    cells := [start];
    visited := visited0 + {start};
    while |cells| < cageSize
      invariant 1 <= |cells| <= cageSize
      invariant cells[0] == start
      invariant forall x :: x in cells ==> InBounds(x, n) && x !in visited0
      invariant Distinct(cells) && Path(cells)
      invariant forall x :: x in visited <==> x in visited0 || x in cells
      decreases cageSize - |cells|
    {
      var ns := Neighbours(cells[|cells| - 1], n, visited);
      if |ns| == 0 {
        break;
      }
      var k :| 0 <= k < |ns|;
      var next := ns[k];
      assert next in ns;
      cells := cells + [next];
      visited := visited + {next};
    }
  }

  /** The operation drawn for a cage: + or * when its chosen size exceeds 2,
      otherwise any of the four. */
  method ChooseOp(cageSize: nat) returns (op: Op)
    ensures cageSize > 2 ==> op == Add || op == Mul
  {
    if cageSize > 2 {
      op :| op in [Add, Mul];
    } else {
      op :| op in [Add, Sub, Mul, Div];
    }
  }

  /** Adds the cage grown from start to the cages built so far. */
  method NewCage(g: Grid, n: nat, start: Cell, cages0: seq<Cage>, visited0: set<Cell>) returns (cages: seq<Cage>, visited: set<Cell>)
    requires IsGrid(g, n) && InBounds(start, n) && start !in visited0
    requires forall r, c :: 0 <= r < n && 0 <= c < n ==> g[r][c] >= 1
    requires Built(cages0, visited0, g, n)
    ensures Built(cages, visited, g, n)
    ensures start in visited && visited0 <= visited
  {
    var cageSize :| 1 <= cageSize <= n;
    var cells;
    cells, visited := GrowCage(start, cageSize, n, visited0);
    var op := ChooseOp(cageSize);
    assert forall x :: x in cells ==> At(g, x) >= 1;
    TargetAcceptsItsBoard(g, cells, op);
    var cage := Cage(cells, op, CalculateTarget(g, cells, op).value);
    AddCage(cages0, visited0, visited, cage, g, n);
    cages := cages0 + [cage];
  }

  lemma ScanStep(visited0: set<Cell>, visited: set<Cell>, n: nat, i: nat, j: nat)
    requires ScannedBefore(visited0, n, i, j) && visited0 <= visited && Cell(i, j) in visited
    ensures ScannedBefore(visited, n, i, j + 1)
  {
  }

  lemma ScanRow(visited: set<Cell>, n: nat, i: nat)
    requires ScannedBefore(visited, n, i, n)
    ensures ScannedBefore(visited, n, i + 1, 0)
  {
  }

  /** Once every cell has been scanned, the cages built form a partition. */
  lemma BuiltIsPartition(cages: seq<Cage>, visited: set<Cell>, g: Grid, n: nat)
    requires IsGrid(g, n) && Built(cages, visited, g, n) && ScannedBefore(visited, n, n, 0)
    ensures IsPartition(cages, n)
  {
    forall r, c | 0 <= r < n && 0 <= c < n
      ensures Covered(cages, Cell(r, c))
    {
      assert !AtOrAfter(r, c, n, 0);
    }

    forall k | 0 <= k < |cages|
      ensures Distinct(cages[k].cells)
      ensures forall x :: x in cages[k].cells ==> InBounds(x, n)
    {
      assert WellFormedCage(cages[k], g, n);
    }
  }

  /** generate_random_cages: scan the cells in row-major order and grow a new
      cage from each one not yet visited. The cages partition the board, each
      is well formed, and g itself satisfies every one of them. */
  method GenerateRandomCages(g: Grid, n: nat) returns (cages: seq<Cage>)
    requires IsGrid(g, n)
    requires forall r, c :: 0 <= r < n && 0 <= c < n ==> g[r][c] >= 1
    ensures IsPartition(cages, n)
    ensures forall k :: 0 <= k < |cages| ==> WellFormedCage(cages[k], g, n)
    ensures forall k :: 0 <= k < |cages| ==> CageSatisfied(g, cages[k])
  {
    cages := [];
    var visited: set<Cell> := {};
    for i := 0 to n
      invariant Built(cages, visited, g, n)
      invariant ScannedBefore(visited, n, i, 0)
    {
      for j := 0 to n
        invariant Built(cages, visited, g, n)
        invariant ScannedBefore(visited, n, i, j)
      {
        var start := Cell(i, j);
        var visited0 := visited;
        if start !in visited {
          cages, visited := NewCage(g, n, start, cages, visited);
        }
        ScanStep(visited0, visited, n, i, j);
      }
      ScanRow(visited, n, i);
    }
    BuiltIsPartition(cages, visited, g, n);
  }
}

=== FILE: roundtrip.dfy ===
/** The pieces composed as the program composes them: a Latin square is
    generated, cut into cages, and a blank board of the same size is handed
    to each solver together with those cages. */
module RoundTrip {
  import opened Grids
  import opened Cages
  import opened Partition
  import opened Generator
  import opened Backtracking
  import opened Csp

  /** cages were cut from the Latin square g: they partition the board, each
      is well formed on g, and g satisfies each of them. */
  ghost predicate PuzzleOf(g: Grid, cages: seq<Cage>, n: nat) {
    && IsGrid(g, n) && Latin(g, n) && IsPartition(cages, n)
    && (forall k :: 0 <= k < |cages| ==> WellFormedCage(cages[k], g, n))
    && (forall k :: 0 <= k < |cages| ==> CageSatisfied(g, cages[k]))
  }

  /** A puzzle cut from a generated Latin square g. Neither solver's pruning
      can discard g: every board that g extends passes the evaluator on
      every cage, and every value of g lies in the domain create_domains
      gives its cell. */
  method MakePuzzle(n: nat) returns (r: Option<(Grid, seq<Cage>)>)
    ensures r.Some? ==> PuzzleOf(r.value.0, r.value.1, n)
    ensures r.Some? ==> forall i, j :: 0 <= i < n && 0 <= j < n ==>
      r.value.0[i][j] in CreateDomains(n, r.value.1)[Cell(i, j)]
    ensures r.Some? ==> forall b, k :: IsGrid(b, n) && Extends(b, r.value.0, n) && 0 <= k < |r.value.1| ==>
      Accepts(b, r.value.1[k])
    ensures n == 1 ==> r.Some?
  {
    var generated := GenerateKenKen(n);
    if generated.None? {
      return None;
    }
    var g := generated.value;
    var cages := GenerateRandomCages(g, n);
    DomainsKeepSolutions(g, n, cages);
    PruningKeeps(g, cages, n);
    return Some((g, cages));
  }

  /** Every board below the generated solution passes the evaluator on every cage. */
  lemma PruningKeeps(g: Grid, cages: seq<Cage>, n: nat)
    requires PuzzleOf(g, cages, n)
    ensures forall b, k :: IsGrid(b, n) && Extends(b, g, n) && 0 <= k < |cages| ==> Accepts(b, cages[k])
  {
    forall b, k | IsGrid(b, n) && Extends(b, g, n) && 0 <= k < |cages|
      ensures Accepts(b, cages[k])
    {
      var cage := cages[k];
      assert WellFormedCage(cage, g, n) && CageSatisfied(g, cage);
      assert forall x :: x in cage.cells ==> InBounds(x, n);
      PartialCheckSound(b, g, cage);
    }
  }

  /** Both solvers run on the cages of a generated puzzle from a blank
      board. Whatever each returns is a Latin square that satisfies every
      cage of the puzzle, and the puzzle's cages partition the board. */
  method GenerateAndSolve(n: nat) returns (cages: seq<Cage>, byBacktracking: Option<Grid>, byCsp: Option<Grid>)
    ensures byBacktracking.Some? || byCsp.Some? ==> IsPartition(cages, n)
    ensures Solves(byBacktracking, n, cages) && Solves(byCsp, n, cages)
  {
    var puzzle := MakePuzzle(n);
    if puzzle.None? {
      return [], None, None;
    }
    cages := puzzle.value.1;
    byBacktracking, byCsp := SolveBoth(n, puzzle.value.0, cages);
  }

  /** The two solvers on a blank board and the cages cut from g. */
  method SolveBoth(n: nat, g: Grid, cages: seq<Cage>) returns (byBacktracking: Option<Grid>, byCsp: Option<Grid>)
    requires PuzzleOf(g, cages, n)
    ensures Solves(byBacktracking, n, cages) && Solves(byCsp, n, cages)
  {
    var blank := EmptyGrid(n);
    EmptyGridIsPartialLatin(n);
    forall k | 0 <= k < |cages|
      ensures !Filled(blank, cages[k].cells) && |cages[k].cells| >= 1
    {
      assert WellFormedCage(cages[k], g, n);
      var y := cages[k].cells[0];
      assert InBounds(y, n);
    }
    var ok, res := SolveKenken(blank, cages);
    byBacktracking := if ok then Some(res) else None;
    byCsp := SolveKenkenCsp(blank, cages);
  }

  /** When there is a result, it is a Latin square that satisfies every cage of the list. */
  ghost predicate Solves(r: Option<Grid>, n: nat, cages: seq<Cage>) {
    r.Some? ==> IsGrid(r.value, n) && Latin(r.value, n) && forall k :: 0 <= k < |cages| ==> CageSatisfied(r.value, cages[k])
  }
}
